=== FILE: README.md ===
# pqueue storage engine, modelled in Dafny

This project models the storage engine of `pqueue`. It is a persistent FIFO queue that keeps its items in a directory:

- a metadata record (`info`) holding the chunk size, the stored size, and two cursors `[chunk, index, offset]`;
- numbered chunk files `q00000`, `q00001`, …, each an append-only log of records.

`put` appends a record to the head chunk and advances the head cursor. The head rolls over to the next chunk number when its index reaches the chunk size. `get` reads the record at the tail cursor and advances the tail. When the tail's index reaches the chunk size, `get` deletes the consumed chunk and moves the tail to the start of the next chunk. Opening the queue cuts the head chunk back to the committed head offset.

`qsize`, `put` and `get` each run under one exclusive lock (pqueue/pqueue.py:75, 79, 88). Opening the queue takes no lock, but the model treats it as atomic too. So every operation is an atomic, pure function on an abstract directory `Dir`: an optional `Info` and a `map<nat, Bytes>` from chunk number to file contents.

Files:

- `options.dfy`: the `Option` type.
- `codec.dfy`: the record framing, an 8-byte big-endian length followed by the payload. It stands in for `pickle`, and the round trip is proved.
- `chunk_names.dfy`: the `q%05d` chunk file names.
- `storage.dfy`: `LoadInfo`, `Qsize`, `Put`, `Get` and `Recover`, the opening-time truncation.
- `refinement.dfy`: a representation invariant and proofs that put, get and reopen act on the directory as append, pop-front and no-op act on a sequence.
- `fifo.dfy`: runs of arbitrary call sequences. From an empty directory every reply equals the reply of a plain FIFO queue, and the stored size is the number of puts minus the number of successful gets.
- `crash.dfy`: reopening after a put was interrupted while bytes of its record were already in the head chunk file but its metadata was not yet saved. This covers the finding below.

The engine as written records, on head rollover, the offset of the end of the chunk just filled. It does not record offset 0 in the new chunk. Opening the queue is meant to discard bytes past the committed head: see the comment at pqueue/pqueue.py:66 and the truncation at pqueue/pqueue.py:69-72. After a rollover, only offset 0 in the new chunk achieves that. The model follows the code: `Storage.Put` keeps the code's offset, and `Storage.PutCorrected` uses 0. Both are `Storage.PutWith` with a `RolloverOffset` policy. The FIFO refinement holds for both policies. Only crash recovery tells them apart.

## Model

| member | source | states |
|---|---|---|
| Codec.Encode | pqueue/pqueue.py:83 | A record is the payload preceded by a length prefix of `Width` bytes. The payload can be read back from position `Width`. |
| Codec.Decode | pqueue/pqueue.py:95-96 | The read fails exactly when no payload's record is a prefix of the stream. On success, the returned payload's record is a prefix of the stream, and the number of bytes consumed is that record's length, so `tell()` after the load reports the start offset plus that length. |
| Codec.DecodeEncode | pqueue/pqueue.py:95-96 | Reading a record followed by any bytes returns its payload and consumes exactly the record. |
| Codec.RecordUnique | pqueue/pqueue.py:95-96 | At most one payload's record can start a stream, so reads are unambiguous. |
| Codec.EncodeAllAppend | pqueue/pqueue.py:82-83 | The records of two item sequences, appended, are the records of the concatenated sequence. |
| ChunkNames.ChunkFileName | pqueue/pqueue.py:136-137 | A chunk name is `q` followed by at least five digits. |
| ChunkNames.ParseChunkFileNameInverse | pqueue/pqueue.py:136-137 | Every chunk file name reads back as its chunk number. |
| ChunkNames.ChunkFileNameInjective | pqueue/pqueue.py:136-137 | Two distinct chunks never share a file name. |
| ChunkNames.ChunkFileNameFixedWidth | pqueue/pqueue.py:136-137 | Chunks 0 to 99999 have six-character names. |
| Storage.LoadInfo | pqueue/pqueue.py:115-127 | Returns the stored metadata when it exists. Otherwise returns the configured chunk size, size 0, and head and tail both at `[0, 0, 0]`. |
| Storage.Qsize | pqueue/pqueue.py:74-76 | A directory without metadata has size 0. |
| Storage.AdvanceHead | pqueue/pqueue.py:26-30 | The head index grows by one. When it reaches the chunk size, the head moves to index 0 of the next chunk. The new head is strictly after the old one. |
| Storage.PutWith | pqueue/pqueue.py:78-85 | A put creates or extends only the head chunk, by exactly the item's record. Every other chunk, the tail and the chunk size stay unchanged. The size grows by one and the head advances. |
| Storage.Put | pqueue/pqueue.py:25-33 | The committed head offset is the length of the chunk just appended to, on rollover too. |
| Storage.PutCorrected | pqueue/pqueue.py:29-33 | Same as `Put`, except that the head offset is 0 when the head rolled over to a new chunk. |
| Storage.Get | pqueue/pqueue.py:87-105 | The reply is `Empty` exactly when the tail is not before the head in `(chunk, index)` order. On a non-empty queue it fails exactly when the tail chunk is missing (`MissingChunk`), or when the tail offset is past its end or no complete record starts there. `Empty` and failures change nothing. A returned item's record starts at the tail offset of the tail chunk. The size drops by one. On rollover the tail moves to `(chunk + 1, 0, 0)` and only the consumed chunk is deleted; otherwise it advances past the record and no file changes. The head chunk is never deleted. |
| Storage.Recover | pqueue/pqueue.py:66-72 | Only the head chunk changes. It becomes its own prefix of length `min(head offset, length)`. The metadata and the set of files stay the same. |
| Storage.RecoverIdempotent | pqueue/pqueue.py:66-72 | Opening twice has the effect of opening once. |
| Refinement.EmptyDirRepresentsEmpty | pqueue/pqueue.py:115-127 | A directory with no metadata is the empty queue: size 0, and a get answers `Empty`. |
| Refinement.SizeIsDistance | pqueue/pqueue.py:74-76 | On a consistent directory, the stored size is the queue length and the number of records between tail and head. |
| Refinement.PutRefines | pqueue/pqueue.py:78-85 | A put on a directory representing `q` leaves one representing `q + [x]`. |
| Refinement.GetFront | pqueue/pqueue.py:94-96 | On a non-empty queue, the record at the tail is the front item and the tail chunk exists. |
| Refinement.GetRefines | pqueue/pqueue.py:87-105 | A get on an empty queue answers `Empty` and changes nothing. On a non-empty queue it answers `q[0]` and leaves a directory representing `q[1..]`. |
| Refinement.RecoverRefines | pqueue/pqueue.py:66-72 | Opening a consistent directory changes nothing. |
| Fifo.StepRefines | pqueue/pqueue.py:74-105 | Each call answers as the FIFO queue does and keeps the representation. |
| Fifo.ExecuteRefines | pqueue/tests/test_queue.py:65-79 | Any mix of puts, gets, size queries and reopens answers exactly as a FIFO queue over the same items. |
| Fifo.AbstractSizeAccounting | pqueue/tests/test_queue.py:65-79 | On the FIFO queue, the length changes by the puts minus the gets that returned an item. |
| Fifo.FifoFromEmptyDirectory | pqueue/tests/test_queue.py:32-46 | From an empty directory, with any chunk size of at least 1, the replies are the FIFO queue's, and the stored size is the puts minus the successful gets. |
| Crash.InterruptedPut | pqueue/pqueue.py:82-85 | A put that stops after bytes of its record reached the head chunk file, and before its metadata was saved, leaves the metadata unchanged and those bytes at the end of the head chunk. |
| Crash.JunkAfterTailRecord | pqueue/pqueue.py:94-104 | Bytes appended after a complete record at the tail do not change what a get returns. They stay while the tail stays in that chunk, and they go with the chunk when the tail rolls over. |
| Crash.JunkBelowHeadNeverRead | pqueue/tests/test_queue.py:48-63 | Bytes appended to a tail chunk that the head has already left, as the partial-write test does, are not read by the next get, which answers the front item as without them. The get either leaves them in the same chunk, so the step repeats, or deletes them with the chunk after its last record. |
| Crash.RecoverAfterInterruptedPut | pqueue/pqueue.py:66-72 | When the head chunk file exists, reopening after an interrupted put restores the directory exactly. |
| Crash.CorrectedRecoverAfterInterruptedPut | pqueue/pqueue.py:66-72 | Reopening after an interrupted put gives back a directory representing the committed queue, with the same groups. This holds whenever the head chunk file exists, and always with offset 0 on rollover. |
| Crash.AnyJunkBreaksAsWritten | pqueue/pqueue.py:32-33 | As written, with one record per chunk, any non-empty leftover bytes of an interrupted put after the first put leave, after reopening, a directory that represents no queue holding just the committed item. This covers a prefix of the record and a record longer than the committed one. |
| Crash.AsWrittenDeliversInterruptedRecord | pqueue/pqueue.py:32-33 | As written, a crash right after a rollover, once the next record reached the new head chunk, leaves that uncommitted record in place. A later get returns it instead of the next committed item, so the directory no longer represents the committed queue. |
| Crash.CorrectedDeliversNextRecord | pqueue/pqueue.py:32-33 | In the same scenario with offset 0 on rollover, the replies are those of the FIFO queue. |

## Left out

- The lock file and `fcntl` locking (pqueue/pqueue.py:38-46): each operation is modelled as one atomic step.
- The `SyncQ` wrapper, `maxsize` blocking, `task_done` and the multithreaded test: these belong to the standard-library queue around the engine.
- The pickle format: items are byte strings shorter than 2^64 bytes, framed by an explicit length prefix. Pickle's own encoding is not modelled.
- The temporary file and rename in `_saveinfo`: a metadata write is atomic.
- Storage.LoadInfo: the metadata is an in-memory value, not a pickled file. On Python 3 the source opens the metadata file in text mode (pqueue/pqueue.py:118-119), so `pickle.load` fails on every call after the first save. The model gives the behaviour that works, where the stored record is read back as written.
- Locking when opening: `_init` loads the metadata and truncates the head chunk without taking the lock (pqueue/pqueue.py:62-72). Another handle's put can commit between that load and the truncation, and the truncation then cuts the committed record. `Storage.Recover` is modelled as one atomic step, so this race is not covered.
- Bytes appended after the last record of a full chunk below the head, which pqueue/tests/test_queue.py:48-63 creates: `Crash.JunkBelowHeadNeverRead` proves that one get ignores them. The representation invariant does not admit such bytes, so nothing is proved about a whole run of calls from that state.
- Directory and lock-file creation in `_init`, and `os.path.join`: a chunk is identified by its number; `ChunkNames` models the name.
- Failures of `get`: Python raises an exception when the tail chunk is missing or holds no complete record at the tail offset. The model returns `Failed(MissingChunk)` or `Failed(MalformedRecord)` and leaves the directory unchanged, because the metadata is not saved in that case.
- Refinement.Refines: the representation invariant requires a chunk size of at least 1. With a chunk size of 0 or less the code never rolls over. `Put` and `Get` model that case, but no refinement is proved for it.
- Refinement.FilesOk: the invariant assumes no chunk file lies beyond the head chunk. Garbage placed in a later chunk file (pqueue/tests/test_queue.py:103-119) is not removed by recovery, and the refinement does not cover it.
- Crash.InterruptedPut: only a crash after record bytes reached the head chunk file and before the metadata was saved is modelled. Because `_saveinfo` runs before `close()` flushes the write buffer (pqueue/pqueue.py:20, 35-36, 82-85), a complete record with the old metadata arises when `_saveinfo` (pqueue/pqueue.py:129-134) raises: an interrupt before the rename or a full disk unwinds through `closing(WriteBatch(...))`, whose `close()` flushes the whole record. A hard kill before the save leaves at most a prefix of the record. Another process appending to the head chunk has the same effect. The junk is arbitrary bytes, so all of these are covered. A crash in `get` between the chunk deletion and the metadata write is not modelled either.
- The opposite put window is not modelled: the metadata is saved, and the process dies before `close()` flushes the rest of the record. The committed head offset then lies past the end of the head chunk file, and a later get of that record fails.

## Findings

| source | as written | input that shows it | evidently intended | confidence | as-written member | corrected member |
|---|---|---|---|---|---|---|
| pqueue/pqueue.py:32-33 | On rollover the new head cursor `[hnum + 1, 0, fd.tell()]` gets the length of the chunk just filled as its offset, although the new chunk is empty. Recovery cuts the head chunk back to that offset only when the chunk is longer. | Chunk size 1. Put `x`, so the head is `(1, 0, len(record x))`. A put of `y` with `len(y) <= len(x)` writes its record to `q00001`, then `_saveinfo` raises (an interrupt before the rename, or a full disk). Leaving the `closing` block flushes the whole record, and the old metadata stays. A hard kill instead leaves a prefix of the record, and that prefix also survives reopening (`Crash.AnyJunkBreaksAsWritten`). Reopening leaves it in place. Then get, get, put `z`, get returns `x`, Empty, then `y` instead of `z`. | The head offset after rollover is 0, so recovery empties the new head chunk and the crashed record disappears. | not executed | Crash.AnyJunkBreaksAsWritten | pqueue/pqueue.py:32-33 | As written, with one record per chunk, any non-empty leftover bytes of an interrupted put after the first put leave, after reopening, a directory that represents no queue holding just the committed item. This covers a prefix of the record and a record longer than the committed one. |
| Crash.AsWrittenDeliversInterruptedRecord | Crash.CorrectedRecoverAfterInterruptedPut |

=== FILE: chunk_names.dfy ===
/**
 Names of chunk files: chunk n lives in the file "q" followed by n in decimal,
 zero-padded to at least five digits ("q00000", "q00001", ..., "q123456").
 */
module ChunkNames {
  import opened Options

  /** Minimum number of digits in a chunk file name. */
  const PadWidth: nat := 5

  predicate IsDigit(c: char)
  {
    '0' <= c <= '9'
  }

  function DigitChar(d: nat): (c: char)
    requires d < 10
    ensures IsDigit(c)
  {
    ['0', '1', '2', '3', '4', '5', '6', '7', '8', '9'][d]
  }

  function DigitValue(c: char): (d: nat)
    requires IsDigit(c)
    ensures d < 10
  {
    (c as int - '0' as int) as nat
  }

  /** The shortest decimal representation of n, most significant digit first. */
  function Decimal(n: nat): (s: string)
    ensures |s| >= 1
    ensures forall k :: 0 <= k < |s| ==> IsDigit(s[k])
  {
    if n < 10 then [DigitChar(n)] else Decimal(n / 10) + [DigitChar(n % 10)]
  }

  /** The number a string of decimal digits denotes. */
  function DecimalValue(s: string): (n: nat)
    requires forall k :: 0 <= k < |s| ==> IsDigit(s[k])
  {
    if s == [] then 0 else DecimalValue(s[..|s| - 1]) * 10 + DigitValue(s[|s| - 1])
  }

  function Zeros(k: nat): (s: string)
    ensures |s| == k
    ensures forall j :: 0 <= j < k ==> s[j] == '0'
  {
    if k == 0 then [] else Zeros(k - 1) + ['0']
  }

  /** n in decimal, zero-padded on the left to at least PadWidth digits. */
  function PaddedDecimal(n: nat): (s: string)
    ensures |s| == if |Decimal(n)| < PadWidth then PadWidth else |Decimal(n)|
    ensures forall k :: 0 <= k < |s| ==> IsDigit(s[k])
  {
    var digits := Decimal(n);
    if |digits| < PadWidth then
      LeadingZerosIgnored(PadWidth - |digits|, digits);
      Zeros(PadWidth - |digits|) + digits
    else digits
  }

  /** The file name of chunk n: the formatting "q%05d" applied to n. */
  function ChunkFileName(n: nat): (name: string)
    ensures |name| == 1 + if |Decimal(n)| < PadWidth then PadWidth else |Decimal(n)|
    ensures name[0] == 'q'
    ensures forall k :: 1 <= k < |name| ==> IsDigit(name[k])
  {
    ['q'] + PaddedDecimal(n)
  }

  /** Reads a chunk number back from a file name; None for names that are not chunk names. */
  function ParseChunkFileName(name: string): (r: Option<nat>)
  {
    if |name| < 1 + PadWidth || name[0] != 'q' then None
    else if exists k :: 1 <= k < |name| && !IsDigit(name[k]) then None
    else Some(DecimalValue(name[1..]))
  }

  lemma {:induction false} DecimalValueOfDecimal(n: nat)
    ensures DecimalValue(Decimal(n)) == n
  {
    var s := Decimal(n);
    if n >= 10 {
      assert s[..|s| - 1] == Decimal(n / 10);
      DecimalValueOfDecimal(n / 10);
    }
  }

  lemma {:induction false} LeadingZerosIgnored(k: nat, s: string)
    requires forall j :: 0 <= j < |s| ==> IsDigit(s[j])
    ensures forall j :: 0 <= j < |Zeros(k) + s| ==> IsDigit((Zeros(k) + s)[j])
    ensures DecimalValue(Zeros(k) + s) == DecimalValue(s)
  {
    var z := Zeros(k) + s;
    if s == [] {
      assert z == Zeros(k);
      if k > 0 {
        assert z[..|z| - 1] == Zeros(k - 1);
        LeadingZerosIgnored(k - 1, s);
        assert Zeros(k - 1) + s == Zeros(k - 1);
      }
    } else {
      assert z[..|z| - 1] == Zeros(k) + s[..|s| - 1];
      LeadingZerosIgnored(k, s[..|s| - 1]);
    }
  }

  lemma PaddedDecimalValue(n: nat)
    ensures DecimalValue(PaddedDecimal(n)) == n
  {
    var digits := Decimal(n);
    DecimalValueOfDecimal(n);
    if |digits| < PadWidth {
      LeadingZerosIgnored(PadWidth - |digits|, digits);
    }
  }

  /** A chunk file name denotes its chunk number again. */
  lemma ParseChunkFileNameInverse(n: nat)
    ensures ParseChunkFileName(ChunkFileName(n)) == Some(n)
  {
    var name := ChunkFileName(n);
    assert name[1..] == PaddedDecimal(n);
    PaddedDecimalValue(n);
    assert forall k :: 1 <= k < |name| ==> IsDigit(name[k]) by {
      forall k | 1 <= k < |name| ensures IsDigit(name[k]) {
        assert name[k] == PaddedDecimal(n)[k - 1];
      }
    }
  }

  /** Distinct chunks never share a file. */
  lemma ChunkFileNameInjective(m: nat, n: nat)
    ensures ChunkFileName(m) == ChunkFileName(n) ==> m == n
  {
    ParseChunkFileNameInverse(m);
    ParseChunkFileNameInverse(n);
  }

  lemma {:induction false} DecimalLength(n: nat, k: nat)
    requires n < Pow10(k)
    ensures |Decimal(n)| <= if k == 0 then 1 else k
  {
    if n >= 10 {
      assert k >= 2;
      DecimalLength(n / 10, k - 1);
    }
  }

  function Pow10(k: nat): (r: nat)
    ensures r >= 1
  {
    if k == 0 then 1 else 10 * Pow10(k - 1)
  }

  /** Chunks 0 .. 99999 have names of exactly six characters, as "q00000". */
  lemma ChunkFileNameFixedWidth(n: nat)
    requires n < 100000
    ensures |ChunkFileName(n)| == 1 + PadWidth
  {
    assert Pow10(5) == 100000;
    DecimalLength(n, 5);
  }
}

=== FILE: codec.dfy ===
/**
 Record framing for chunk files. The queue stores each item as one
 self-delimiting record: an 8-byte big-endian length prefix followed by the
 payload bytes. A reader positioned at the start of a record learns from the
 prefix exactly where the record ends, which is what drives the byte offsets
 kept in the head and tail cursors.
 */
module Codec {

  /** One byte of a chunk file. */
  type byte = b: int | 0 <= b < 256

  type Bytes = seq<byte>

  /** Number of bytes in the length prefix of a record. */
  const Width: nat := 8

  /** 256^Width: every payload is shorter than this, so its length fits the prefix. */
  const MaxPayload: nat := 0x1_0000_0000_0000_0000

  /** An enqueued payload: any byte string whose length fits the prefix. */
  type Item = s: Bytes | |s| < MaxPayload

  /** 256^k. */
  function Pow256(k: nat): (r: nat)
    ensures r >= 1
  {
    if k == 0 then 1 else 256 * Pow256(k - 1)
  }

  lemma Pow256Width()
    ensures Pow256(Width) == MaxPayload
  {
  }

  /** The w-byte big-endian representation of n. */
  function ToBigEndian(n: nat, w: nat): (r: Bytes)
    requires n < Pow256(w)
    ensures |r| == w
  {
    if w == 0 then []
    else
      assert n / 256 < Pow256(w - 1);
      ToBigEndian(n / 256, w - 1) + [n % 256]
  }

  /** The number whose big-endian representation is s. */
  function FromBigEndian(s: Bytes): (n: nat)
    ensures n < Pow256(|s|)
  {
    if s == [] then 0
    else
      var hi := FromBigEndian(s[..|s| - 1]);
      assert hi * 256 <= (Pow256(|s| - 1) - 1) * 256;
      hi * 256 + s[|s| - 1]
  }

  lemma {:induction false} FromToBigEndian(n: nat, w: nat)
    requires n < Pow256(w)
    ensures FromBigEndian(ToBigEndian(n, w)) == n
  {
    if w > 0 {
      var s := ToBigEndian(n, w);
      assert s[..w - 1] == ToBigEndian(n / 256, w - 1);
      FromToBigEndian(n / 256, w - 1);
    }
  }

  lemma {:induction false} ToFromBigEndian(s: Bytes)
    ensures ToBigEndian(FromBigEndian(s), |s|) == s
  {
    if s != [] {
      var init := s[..|s| - 1];
      var n := FromBigEndian(s);
      assert n / 256 == FromBigEndian(init) && n % 256 == s[|s| - 1];
      ToFromBigEndian(init);
      assert s == init + [s[|s| - 1]];
    }
  }

  /** The record of one payload: its length as Width big-endian bytes, then the payload. */
  function Encode(x: Item): (r: Bytes)
    ensures |r| == Width + |x|
    ensures r[Width..] == x
  {
    Pow256Width();
    ToBigEndian(|x|, Width) + x
  }

  /** True when the record of x is a prefix of s. */
  predicate StartsWithRecord(s: Bytes, x: Item)
  {
    |Encode(x)| <= |s| && s[..|Encode(x)|] == Encode(x)
  }

  /** What a read at the start of a byte stream produces. */
  datatype Decoded = Record(item: Item, used: nat) | Malformed

  /**
   Reads one record from the front of s, reporting how many bytes it used.
   Fails exactly when s does not begin with a complete record (the stream
   ends inside the prefix or inside the payload).
   */
  function Decode(s: Bytes): (r: Decoded)
    ensures r.Record? ==> r.used == |Encode(r.item)| && StartsWithRecord(s, r.item)
    ensures r.Malformed? <==> forall x: Item :: !StartsWithRecord(s, x)
  {
    if |s| < Width then
      assert forall x: Item :: !StartsWithRecord(s, x);
      Malformed
    else
      var n := FromBigEndian(s[..Width]);
      if |s| - Width < n then
        assert forall x: Item :: !StartsWithRecord(s, x) by {
          forall x: Item | StartsWithRecord(s, x) ensures false {
            assert s[..Width] == Encode(x)[..Width] == ToBigEndian(|x|, Width);
            Pow256Width();
            FromToBigEndian(|x|, Width);
          }
        }
        Malformed
      else
        Pow256Width();
        var x: Item := s[Width..Width + n];
        ToFromBigEndian(s[..Width]);
        assert s[..Width + n] == Encode(x);
        assert StartsWithRecord(s, x);
        Record(x, Width + n)
  }

  /** Decoding a record followed by anything yields the record's payload and consumes exactly the record. */
  lemma DecodeEncode(x: Item, rest: Bytes)
    ensures Decode(Encode(x) + rest) == Record(x, |Encode(x)|)
  {
    var s := Encode(x) + rest;
    assert s[..Width] == ToBigEndian(|x|, Width);
    Pow256Width();
    FromToBigEndian(|x|, Width);
    assert s[Width..Width + |x|] == x;
  }

  /** Records are unambiguous: at most one payload's record starts a byte stream. */
  lemma RecordUnique(s: Bytes, x: Item, y: Item)
    requires StartsWithRecord(s, x) && StartsWithRecord(s, y)
    ensures x == y
  {
    Pow256Width();
    assert ToBigEndian(|x|, Width) == s[..Width] == ToBigEndian(|y|, Width);
    FromToBigEndian(|x|, Width);
    FromToBigEndian(|y|, Width);
    assert x == Encode(x)[Width..] == s[Width..Width + |x|];
    assert y == Encode(y)[Width..] == s[Width..Width + |y|];
  }

  /** The concatenated records of a sequence of payloads, in order. */
  function EncodeAll(xs: seq<Item>): (r: Bytes)
    ensures xs == [] <==> r == []
  {
    if xs == [] then [] else Encode(xs[0]) + EncodeAll(xs[1..])
  }

  lemma {:induction false} EncodeAllAppend(xs: seq<Item>, ys: seq<Item>)
    ensures EncodeAll(xs + ys) == EncodeAll(xs) + EncodeAll(ys)
  {
    if xs != [] {
      assert (xs + ys)[1..] == xs[1..] + ys;
      EncodeAllAppend(xs[1..], ys);
    } else {
      assert xs + ys == ys;
    }
  }

  /** Appending one record to a log of records encodes the log extended by that payload. */
  lemma EncodeAllSnoc(xs: seq<Item>, x: Item)
    ensures EncodeAll(xs + [x]) == EncodeAll(xs) + Encode(x)
  {
    EncodeAllAppend(xs, [x]);
    assert EncodeAll([x]) == Encode(x) + EncodeAll([]);
  }
}

=== FILE: crash.dfy ===
/**
 Crash recovery. A put writes its record through a buffered file and saves
 the metadata before the file is closed, so the metadata normally lands
 first. Bytes past the committed head offset arise in two ways. When saving
 the metadata raises (an interrupt before the rename, a full disk), the
 exception unwinds through the closing of the chunk file, which flushes the
 whole record while the old metadata stays. When the process is killed
 outright, whatever part of the record the buffer had already passed on
 stays, which is at most a prefix of it. Another process appending to the
 head chunk has the same effect. Opening the queue again must cut those
 bytes off.

 With the head offset the engine records on rollover (the length of the
 chunk just filled, not 0), the cut misses: when the head has just moved to
 a new chunk, the leftover bytes sit in that new chunk at offset 0, and at
 least some of them survive whatever their length. A complete record no
 longer than the old chunk survives whole, and a later get delivers it in
 place of the record of the next put. With the offset corrected to 0,
 recovery restores the committed queue in every case.
 */
module Crash {
  import opened Options
  import opened Codec
  import opened Storage
  import opened Refinement
  import opened Fifo

  /** A put interrupted after bytes of its record (all of them, or a prefix) reached the head chunk file and before its metadata was saved: the junk is at the end of the head chunk, the metadata is unchanged. */
  function InterruptedPut(d: Dir, chunksize: int, junk: Bytes): (r: Dir)
    ensures r.info == d.info
    ensures var h := LoadInfo(d, chunksize).head.chunk;
      && r.chunks.Keys == d.chunks.Keys + {h}
      && r.chunks[h] == Chunk(d, h) + junk
      && forall n :: n in d.chunks && n != h ==> r.chunks[n] == d.chunks[n]
  {
    var h := LoadInfo(d, chunksize).head.chunk;
    d.(chunks := d.chunks[h := Chunk(d, h) + junk])
  }

  /** When the head chunk file exists, recovery after an interrupted put restores the directory exactly. */
  lemma RecoverAfterInterruptedPut(d: Dir, chunksize: int, q: seq<Item>, g: seq<seq<Item>>, junk: Bytes, policy: RolloverOffset)
    requires Refines(d, chunksize, q, g, policy)
    requires LoadInfo(d, chunksize).head.chunk in d.chunks
    ensures Recover(InterruptedPut(d, chunksize, junk), chunksize) == d
  {
    var h := LoadInfo(d, chunksize).head;
    var c := d.chunks[h.chunk];
    assert (c + junk)[..h.offset] == c;
    assert d.chunks[h.chunk := c] == d.chunks;
  }

  /**
   Recovery after an interrupted put restores the committed queue whenever
   the head chunk file exists, and, with the corrected rollover offset,
   always.
   */
  lemma CorrectedRecoverAfterInterruptedPut(d: Dir, chunksize: int, q: seq<Item>, g: seq<seq<Item>>, junk: Bytes, policy: RolloverOffset)
    requires Refines(d, chunksize, q, g, policy)
    requires policy == StartOfNewChunk || LoadInfo(d, chunksize).head.chunk in d.chunks
    ensures Refines(Recover(InterruptedPut(d, chunksize, junk), chunksize), chunksize, q, g, policy)
  {
    var i := LoadInfo(d, chunksize);
    var h := i.head;
    if h.chunk in d.chunks {
      RecoverAfterInterruptedPut(d, chunksize, q, g, junk, policy);
    } else {
      var d' := Recover(InterruptedPut(d, chunksize, junk), chunksize);
      assert d'.chunks == d.chunks[h.chunk := []];
      assert LoadInfo(d', chunksize) == i;
      EmptyHeadChunkAdded(d, i, g, d');
    }
  }

  /** Creating the absent head chunk file empty, as recovery does under the corrected offset, keeps the layout. */
  lemma EmptyHeadChunkAdded(d: Dir, i: Info, g: seq<seq<Item>>, d': Dir)
    requires Layout(d, i, g) && FilesOk(d, i, StartOfNewChunk)
    requires i.head.chunk !in d.chunks
    requires d'.chunks == d.chunks[i.head.chunk := []]
    ensures Layout(d', i, g) && FilesOk(d', i, StartOfNewChunk)
  {
  }

  /** Bytes appended to chunk n, with the metadata unchanged. */
  function AppendedTo(d: Dir, n: nat, junk: Bytes): (r: Dir)
    ensures r.info == d.info
    ensures r.chunks.Keys == d.chunks.Keys + {n}
    ensures r.chunks[n] == Chunk(d, n) + junk
    ensures forall m :: m in d.chunks && m != n ==> r.chunks[m] == d.chunks[m]
  {
    d.(chunks := d.chunks[n := Chunk(d, n) + junk])
  }

  /** A complete record at the tail offset of a non-empty queue is what a get returns. */
  lemma GetReadsRecord(d: Dir, chunksize: int, x: Item, rest: Bytes)
    requires var i := LoadInfo(d, chunksize); var t := i.tail;
      && Before(t, i.head)
      && t.chunk in d.chunks
      && t.offset <= |d.chunks[t.chunk]|
      && d.chunks[t.chunk][t.offset..] == Encode(x) + rest
    ensures Get(d, chunksize) == GetOutcome(DirAfterRead(d, LoadInfo(d, chunksize), x), Got(x))
  {
    DecodeEncode(x, rest);
  }

  /**
   A complete record at the tail offset is read the same with bytes appended
   to the tail chunk; the bytes stay while the tail stays in that chunk and go
   with the chunk when the tail rolls over.
   */
  lemma JunkAfterTailRecord(d: Dir, chunksize: int, x: Item, rest: Bytes, junk: Bytes)
    requires var i := LoadInfo(d, chunksize); var t := i.tail;
      && Before(t, i.head)
      && t.chunk in d.chunks
      && t.offset <= |d.chunks[t.chunk]|
      && d.chunks[t.chunk][t.offset..] == Encode(x) + rest
    ensures var i := LoadInfo(d, chunksize); var t := i.tail;
      var r := Get(d, chunksize); var r' := Get(AppendedTo(d, t.chunk, junk), chunksize);
      && r.reply == Got(x)
      && r'.reply == Got(x)
      && r'.dir == if t.index + 1 == i.chunksize then r.dir else AppendedTo(r.dir, t.chunk, junk)
  {
    var i := LoadInfo(d, chunksize);
    var t := i.tail;
    var c := d.chunks[t.chunk];
    var d' := AppendedTo(d, t.chunk, junk);
    assert LoadInfo(d', chunksize) == i;
    assert d'.chunks[t.chunk][t.offset..] == Encode(x) + (rest + junk) by {
      assert (c + junk)[t.offset..] == c[t.offset..] + junk;
    }
    GetReadsRecord(d, chunksize, x, rest);
    GetReadsRecord(d', chunksize, x, rest + junk);
    if t.index + 1 == i.chunksize {
      assert d'.chunks - {t.chunk} == d.chunks - {t.chunk};
    }
  }

  /**
   Bytes appended to the tail chunk, when the head has moved past it, are
   never read: a get answers as without them, keeps them while it stays in
   that chunk, and they go when the chunk is deleted after its last record.
   */
  lemma JunkBelowHeadNeverRead(d: Dir, chunksize: int, q: seq<Item>, g: seq<seq<Item>>, junk: Bytes, policy: RolloverOffset)
    requires Refines(d, chunksize, q, g, policy)
    requires LoadInfo(d, chunksize).tail.chunk < LoadInfo(d, chunksize).head.chunk
    ensures var i := LoadInfo(d, chunksize); var t := i.tail;
      var r := Get(d, chunksize); var r' := Get(AppendedTo(d, t.chunk, junk), chunksize);
      && r.reply == Got(q[0])
      && r'.reply == r.reply
      && r'.dir == if t.index + 1 == i.chunksize then r.dir else AppendedTo(r.dir, t.chunk, junk)
  {
    var i := LoadInfo(d, chunksize);
    var t := i.tail;
    assert |g[0]| == GroupSize(i, |g|, 0) == i.chunksize - t.index;
    assert q == g[0] + Flatten(g[1..]);
    var x := g[0][0];
    var rest := EncodeAll(g[0][1..]);
    assert EncodeAll(g[0]) == Encode(x) + rest;
    JunkAfterTailRecord(d, chunksize, x, rest, junk);
  }

  /** The calls after reopening: two gets, a put of z, a get. */
  function Scenario(z: Item): (ops: seq<Op>)
  {
    [Dequeue, Dequeue, Enqueue(z), Dequeue]
  }

  lemma ExecuteFirst(d: Dir, chunksize: int, ops: seq<Op>, policy: RolloverOffset)
    requires ops != []
    ensures var (d', reply) := Step(d, chunksize, ops[0], policy);
      Execute(d, chunksize, ops, policy).replies == [reply] + Execute(d', chunksize, ops[1..], policy).replies
  {
  }

  lemma AbstractExecuteFirst(q: seq<Item>, ops: seq<Op>)
    requires ops != []
    ensures var (q', reply) := AbstractStep(q, ops[0]);
      AbstractExecute(q, ops).replies == [reply] + AbstractExecute(q', ops[1..]).replies
  {
  }

  /** The FIFO queue holding x answers the calls of Scenario(z) with x, "empty", and z. */
  lemma AbstractScenario(x: Item, z: Item)
    ensures AbstractExecute([x], Scenario(z)).replies == [Answer(Got(x)), Answer(Empty), Ack, Answer(Got(z))]
  {
    var ops := Scenario(z);
    AbstractExecuteFirst([x], ops);
    AbstractExecuteFirst([], ops[1..]);
    assert ops[1..][1..] == ops[2..];
    AbstractExecuteFirst([], ops[2..]);
    assert ops[2..][1..] == ops[3..];
    AbstractExecuteFirst([z], ops[3..]);
    assert ops[3..][1..] == [];
  }

  /** Record x in chunk 0, the crashed record y in chunk 1, the head at chunk 1 with the offset of the end of chunk 0. */
  function ReopenedAsWritten(x: Item, y: Item): (d: Dir)
  {
    Dir(Some(Info(1, 1, Cursor(1, 0, |Encode(x)|), Origin)), map[0 := Encode(x), 1 := Encode(y)])
  }

  /** The crashed record y survives reopening when it is no longer than x. */
  lemma AsWrittenReopen(x: Item, y: Item)
    requires |y| <= |x|
    ensures Recover(InterruptedPut(Put(EmptyDir, 1, x), 1, Encode(y)), 1) == ReopenedAsWritten(x, y)
  {
    var d1 := Put(EmptyDir, 1, x);
    assert Chunk(EmptyDir, 0) + Encode(x) == Encode(x);
    assert d1 == Dir(Some(Info(1, 1, Cursor(1, 0, |Encode(x)|), Origin)), map[0 := Encode(x)]);
    assert Chunk(d1, 1) + Encode(y) == Encode(y);
  }

  /** After reading x: tail and head both at chunk 1, which still holds y. */
  function ConsumedAsWritten(x: Item, y: Item): (d: Dir)
  {
    Dir(Some(Info(1, 0, Cursor(1, 0, |Encode(x)|), Cursor(1, 0, 0))), map[1 := Encode(y)])
  }

  /** The first get reads x and deletes chunk 0. */
  lemma AsWrittenFirstGet(x: Item, y: Item)
    ensures Get(ReopenedAsWritten(x, y), 1) == GetOutcome(ConsumedAsWritten(x, y), Got(x))
  {
    DecodeEncode(x, []);
    assert Encode(x)[0..] == Encode(x) + [];
    assert map[0 := Encode(x), 1 := Encode(y)] - {0} == map[1 := Encode(y)];
  }

  /** The put of z after the second get appends behind y in chunk 1, and the last get then reads y. */
  lemma AsWrittenLastGet(x: Item, y: Item, z: Item)
    ensures Get(PutWith(ConsumedAsWritten(x, y), 1, z, EndOfOldChunk), 1).reply == Got(y)
  {
    var d := ConsumedAsWritten(x, y);
    var d' := PutWith(d, 1, z, EndOfOldChunk);
    assert d'.chunks[1] == Encode(y) + Encode(z);
    assert LoadInfo(d', 1).tail == Cursor(1, 0, 0) && LoadInfo(d', 1).head.chunk == 2;
    DecodeEncode(y, Encode(z));
    assert (Encode(y) + Encode(z))[0..] == Encode(y) + Encode(z);
  }

  /**
   With one record per chunk, put x, then crash during the put of y, with y
   no longer than x, and reopen. The engine as written answers the calls of
   Scenario(z) with x, "empty", and then y, the record of the put that never
   completed, where the FIFO queue of the committed items answers z.
   */
  lemma AsWrittenDeliversInterruptedRecord(x: Item, y: Item, z: Item)
    requires |y| <= |x|
    ensures var d := Recover(InterruptedPut(Put(EmptyDir, 1, x), 1, Encode(y)), 1);
      Execute(d, 1, Scenario(z), EndOfOldChunk).replies == [Answer(Got(x)), Answer(Empty), Ack, Answer(Got(y))]
    ensures AbstractExecute([x], Scenario(z)).replies == [Answer(Got(x)), Answer(Empty), Ack, Answer(Got(z))]
    ensures y != z ==>
      !Represents(Recover(InterruptedPut(Put(EmptyDir, 1, x), 1, Encode(y)), 1), 1, [x], EndOfOldChunk)
  {
    AsWrittenRun(x, y, z);
    AbstractScenario(x, z);
    var d2 := ReopenedAsWritten(x, y);
    if y != z && Represents(d2, 1, [x], EndOfOldChunk) {
      ExecuteRefines(d2, 1, [x], Scenario(z), EndOfOldChunk);
      assert false;
    }
  }

  /** Record x in chunk 0, and chunk 1 holding what reopening leaves of the junk: at most as many bytes as the record of x. */
  function ReopenedAfterJunk(x: Item, junk: Bytes): (d: Dir)
  {
    var keep := if |Encode(x)| < |junk| then |Encode(x)| else |junk|;
    Dir(Some(Info(1, 1, Cursor(1, 0, |Encode(x)|), Origin)), map[0 := Encode(x), 1 := junk[..keep]])
  }

  /** With one record per chunk, reopening after a put of x and any non-empty leftover bytes of the next put gives ReopenedAfterJunk. */
  lemma AsWrittenReopenJunk(x: Item, junk: Bytes)
    ensures Recover(InterruptedPut(Put(EmptyDir, 1, x), 1, junk), 1) == ReopenedAfterJunk(x, junk)
  {
    var d1 := Put(EmptyDir, 1, x);
    assert Chunk(EmptyDir, 0) + Encode(x) == Encode(x);
    assert d1 == Dir(Some(Info(1, 1, Cursor(1, 0, |Encode(x)|), Origin)), map[0 := Encode(x)]);
    assert Chunk(d1, 1) + junk == junk;
  }

  /** A head at index 0 of a chunk past the tail has no pending record in its chunk, so the layout keeps that chunk empty. */
  lemma RolledHeadChunkEmpty(d: Dir, i: Info, g: seq<seq<Item>>)
    requires Layout(d, i, g)
    requires i.tail.chunk < i.head.chunk && i.head.index == 0
    ensures Chunk(d, i.head.chunk) == []
  {
    var k := |g| - 1;
    assert |g[k]| == GroupSize(i, |g|, k) == 0;
    assert Chunk(d, i.tail.chunk + k) == EncodeAll(g[k]);
  }

  /** Chunk 1 of ReopenedAfterJunk is not empty, although its metadata says no record is pending there, so it represents no queue. */
  lemma NonEmptyHeadChunkBreaks(x: Item, junk: Bytes)
    requires junk != []
    ensures !Represents(ReopenedAfterJunk(x, junk), 1, [x], EndOfOldChunk)
  {
    var d := ReopenedAfterJunk(x, junk);
    assert Chunk(d, 1) != [];
    if Represents(d, 1, [x], EndOfOldChunk) {
      var g :| Refines(d, 1, [x], g, EndOfOldChunk);
      RolledHeadChunkEmpty(d, LoadInfo(d, 1), g);
      assert false;
    }
  }

  /**
   As written, reopening after a put interrupted right after a rollover
   leaves a directory that represents no queue holding just the committed x,
   whatever non-empty part of the next record was written: a prefix of it, or
   all of it, longer than x or not.
   */
  lemma AnyJunkBreaksAsWritten(x: Item, junk: Bytes)
    requires junk != []
    ensures !Represents(Recover(InterruptedPut(Put(EmptyDir, 1, x), 1, junk), 1), 1, [x], EndOfOldChunk)
  {
    AsWrittenReopenJunk(x, junk);
    NonEmptyHeadChunkBreaks(x, junk);
  }

  /** The replies of the engine as written in the crash scenario. */
  lemma AsWrittenRun(x: Item, y: Item, z: Item)
    requires |y| <= |x|
    ensures Recover(InterruptedPut(Put(EmptyDir, 1, x), 1, Encode(y)), 1) == ReopenedAsWritten(x, y)
    ensures Execute(ReopenedAsWritten(x, y), 1, Scenario(z), EndOfOldChunk).replies
      == [Answer(Got(x)), Answer(Empty), Ack, Answer(Got(y))]
  {
    var ops := Scenario(z);
    AsWrittenReopen(x, y);
    AsWrittenFirstGet(x, y);
    ExecuteFirst(ReopenedAsWritten(x, y), 1, ops, EndOfOldChunk);
    assert ops[1..] == [Dequeue, Enqueue(z), Dequeue];
    AsWrittenAfterFirstGet(x, y, z);
  }

  /** After the first get: "empty", then the put of z lands behind y, and the next get reads y. */
  lemma AsWrittenAfterFirstGet(x: Item, y: Item, z: Item)
    ensures Execute(ConsumedAsWritten(x, y), 1, [Dequeue, Enqueue(z), Dequeue], EndOfOldChunk).replies
      == [Answer(Empty), Ack, Answer(Got(y))]
  {
    var ops := [Dequeue, Enqueue(z), Dequeue];
    var d3 := ConsumedAsWritten(x, y);
    AsWrittenLastGet(x, y, z);
    var d4 := PutWith(d3, 1, z, EndOfOldChunk);
    ExecuteFirst(d3, 1, ops, EndOfOldChunk);
    assert ops[1..] == [Enqueue(z), Dequeue];
    ExecuteFirst(d3, 1, ops[1..], EndOfOldChunk);
    assert ops[1..][1..] == [Dequeue];
    ExecuteFirst(d4, 1, ops[1..][1..], EndOfOldChunk);
    assert ops[1..][1..][1..] == [];
  }

  /** One put into an empty directory gives the queue holding just that item. */
  lemma FirstPut(chunksize: int, x: Item, policy: RolloverOffset)
    requires chunksize >= 1
    ensures Represents(PutWith(EmptyDir, chunksize, x, policy), chunksize, [x], policy)
  {
    var empty: seq<Item> := [];
    EmptyDirRepresentsEmpty(chunksize, policy);
    var g :| Refines(EmptyDir, chunksize, empty, g, policy);
    var g' := PutRefines(EmptyDir, chunksize, empty, g, x, policy);
    assert empty + [x] == [x];
    assert Refines(PutWith(EmptyDir, chunksize, x, policy), chunksize, [x], g', policy);
  }

  /** The same crash with the corrected rollover offset: after reopening, the calls of Scenario(z) are answered with x, "empty" and z. */
  lemma CorrectedDeliversNextRecord(x: Item, y: Item, z: Item)
    ensures var d := Recover(InterruptedPut(PutCorrected(EmptyDir, 1, x), 1, Encode(y)), 1);
      Execute(d, 1, Scenario(z), StartOfNewChunk).replies == [Answer(Got(x)), Answer(Empty), Ack, Answer(Got(z))]
  {
    var d1 := PutCorrected(EmptyDir, 1, x);
    FirstPut(1, x, StartOfNewChunk);
    var g :| Refines(d1, 1, [x], g, StartOfNewChunk);
    CorrectedRecoverAfterInterruptedPut(d1, 1, [x], g, Encode(y), StartOfNewChunk);
    var d2 := Recover(InterruptedPut(d1, 1, Encode(y)), 1);
    assert Refines(d2, 1, [x], g, StartOfNewChunk);
    ExecuteRefines(d2, 1, [x], Scenario(z), StartOfNewChunk);
    AbstractScenario(x, z);
  }
}

=== FILE: fifo.dfy ===
/**
 Runs of the queue: any sequence of put, get, size and reopen calls against
 one directory, each call atomic. The engine's replies are those of a plain
 FIFO queue over a sequence of items.
 */
module Fifo {
  import opened Codec
  import opened Storage
  import opened Refinement

  /** A call on the queue; Reopen drops the handle and opens the directory again. */
  datatype Op = Enqueue(item: Item) | Dequeue | Count | Reopen

  /** What a call returns: nothing, a get's answer, or the size. */
  datatype Reply = Ack | Answer(answer: GetReply) | Size(n: int)

  datatype Run = Run(dir: Dir, replies: seq<Reply>)

  datatype AbstractRun = AbstractRun(queue: seq<Item>, replies: seq<Reply>)

  /** One call against the directory. */
  function Step(d: Dir, chunksize: int, op: Op, policy: RolloverOffset): (r: (Dir, Reply))
  {
    match op
    case Enqueue(x) => (PutWith(d, chunksize, x, policy), Ack)
    case Dequeue => var o := Get(d, chunksize); (o.dir, Answer(o.reply))
    case Count => (d, Size(Qsize(d, chunksize)))
    case Reopen => (Recover(d, chunksize), Ack)
  }

  /** The calls ops, in order, against the directory. */
  function Execute(d: Dir, chunksize: int, ops: seq<Op>, policy: RolloverOffset): (r: Run)
    ensures |r.replies| == |ops|
    decreases |ops|
  {
    if ops == [] then Run(d, [])
    else
      var (d', reply) := Step(d, chunksize, ops[0], policy);
      var rest := Execute(d', chunksize, ops[1..], policy);
      Run(rest.dir, [reply] + rest.replies)
  }

  /** One call against the abstract FIFO queue. */
  function AbstractStep(q: seq<Item>, op: Op): (r: (seq<Item>, Reply))
  {
    match op
    case Enqueue(x) => (q + [x], Ack)
    case Dequeue => if q == [] then (q, Answer(Empty)) else (q[1..], Answer(Got(q[0])))
    case Count => (q, Size(|q|))
    case Reopen => (q, Ack)
  }

  /** The calls ops, in order, against the abstract FIFO queue. */
  function AbstractExecute(q: seq<Item>, ops: seq<Op>): (r: AbstractRun)
    ensures |r.replies| == |ops|
    decreases |ops|
  {
    if ops == [] then AbstractRun(q, [])
    else
      var (q', reply) := AbstractStep(q, ops[0]);
      var rest := AbstractExecute(q', ops[1..]);
      AbstractRun(rest.queue, [reply] + rest.replies)
  }

  /** One call on a directory representing q answers as the FIFO queue does and leaves a directory representing its successor. */
  lemma StepRefines(d: Dir, chunksize: int, q: seq<Item>, g: seq<seq<Item>>, op: Op, policy: RolloverOffset)
    returns (g': seq<seq<Item>>)
    requires Refines(d, chunksize, q, g, policy)
    ensures Step(d, chunksize, op, policy).1 == AbstractStep(q, op).1
    ensures Refines(Step(d, chunksize, op, policy).0, chunksize, AbstractStep(q, op).0, g', policy)
  {
    g' := g;
    match op
    case Enqueue(x) =>
      assert Step(d, chunksize, op, policy) == (PutWith(d, chunksize, x, policy), Ack);
      g' := PutRefines(d, chunksize, q, g, x, policy);
    case Dequeue =>
      var o := Get(d, chunksize);
      assert Step(d, chunksize, op, policy) == (o.dir, Answer(o.reply));
      g' := GetRefines(d, chunksize, q, g, policy);
      if q == [] {
        g' := g;
      }
    case Count =>
      assert Step(d, chunksize, op, policy) == (d, Size(Qsize(d, chunksize)));
    case Reopen =>
      RecoverRefines(d, chunksize, q, g, policy);
      assert Step(d, chunksize, op, policy) == (d, Ack);
  }

  /** Any sequence of calls answers as the FIFO queue does. */
  lemma {:induction false} ExecuteRefines(d: Dir, chunksize: int, q: seq<Item>, ops: seq<Op>, policy: RolloverOffset)
    requires Represents(d, chunksize, q, policy)
    ensures Execute(d, chunksize, ops, policy).replies == AbstractExecute(q, ops).replies
    ensures Represents(Execute(d, chunksize, ops, policy).dir, chunksize, AbstractExecute(q, ops).queue, policy)
    decreases |ops|
  {
    if ops != [] {
      var g :| Refines(d, chunksize, q, g, policy);
      var g' := StepRefines(d, chunksize, q, g, ops[0], policy);
      var step := Step(d, chunksize, ops[0], policy);
      var abstractStep := AbstractStep(q, ops[0]);
      assert Represents(step.0, chunksize, abstractStep.0, policy);
      ExecuteRefines(step.0, chunksize, abstractStep.0, ops[1..], policy);
      var rest := Execute(step.0, chunksize, ops[1..], policy);
      var abstractRest := AbstractExecute(abstractStep.0, ops[1..]);
      assert Execute(d, chunksize, ops, policy) == Run(rest.dir, [step.1] + rest.replies);
      assert AbstractExecute(q, ops) == AbstractRun(abstractRest.queue, [abstractStep.1] + abstractRest.replies);
    }
  }

  /** The number of puts in ops. */
  function Enqueues(ops: seq<Op>): (n: nat)
  {
    if ops == [] then 0 else (if ops[0].Enqueue? then 1 else 0) + Enqueues(ops[1..])
  }

  /** The number of gets in replies that returned an item. */
  function Dequeued(replies: seq<Reply>): (n: nat)
  {
    if replies == [] then 0
    else (if replies[0].Answer? && replies[0].answer.Got? then 1 else 0) + Dequeued(replies[1..])
  }

  /** On the FIFO queue, the length changes by the puts minus the gets that returned an item. */
  lemma {:induction false} AbstractSizeAccounting(q: seq<Item>, ops: seq<Op>)
    ensures |AbstractExecute(q, ops).queue| == |q| + Enqueues(ops) - Dequeued(AbstractExecute(q, ops).replies)
    decreases |ops|
  {
    if ops != [] {
      var (q', reply) := AbstractStep(q, ops[0]);
      AbstractSizeAccounting(q', ops[1..]);
      var rest := AbstractExecute(q', ops[1..]);
      assert AbstractExecute(q, ops).replies == [reply] + rest.replies;
      assert ([reply] + rest.replies)[1..] == rest.replies;
    }
  }

  /**
   A queue started in an empty directory, with any chunk size of at least 1
   and under any sequence of calls, answers every call as a FIFO queue of the
   items put, and its stored size is the number of puts minus the number of
   gets that returned an item.
   */
  lemma FifoFromEmptyDirectory(chunksize: int, ops: seq<Op>, policy: RolloverOffset)
    requires chunksize >= 1
    ensures Execute(EmptyDir, chunksize, ops, policy).replies == AbstractExecute([], ops).replies
    ensures var r := Execute(EmptyDir, chunksize, ops, policy);
      Qsize(r.dir, chunksize) == Enqueues(ops) - Dequeued(r.replies)
  {
    EmptyDirRepresentsEmpty(chunksize, policy);
    ExecuteRefines(EmptyDir, chunksize, [], ops, policy);
    AbstractSizeAccounting([], ops);
    var r := Execute(EmptyDir, chunksize, ops, policy);
    var g :| Refines(r.dir, chunksize, AbstractExecute([], ops).queue, g, policy);
    SizeIsDistance(r.dir, chunksize, AbstractExecute([], ops).queue, g, policy);
  }
}

=== FILE: options.dfy ===
/** The optional-value datatype shared by the queue model. */
module Options {

  /** A value that may be missing: an absent metadata file, an unparsable chunk name. */
  datatype Option<+T> = None | Some(value: T)
}

=== FILE: refinement.dfy ===
/**
 The storage engine refines a FIFO queue. The abstract queue is a sequence
 of items; put appends to it and get removes its front. The concrete
 directory represents it through a layout: the records still pending in
 chunk tail.chunk + k form group k, the groups concatenated are the abstract
 queue, every chunk between tail and head is full, and the head chunk ends
 exactly at the committed head offset.
 */
module Refinement {
  import opened Options
  import opened Codec
  import opened Storage

  /** The abstract queue's contents, group by group. */
  function Flatten(g: seq<seq<Item>>): (q: seq<Item>)
  {
    if g == [] then [] else g[0] + Flatten(g[1..])
  }

  lemma {:induction false} FlattenAppend(a: seq<seq<Item>>, b: seq<seq<Item>>)
    ensures Flatten(a + b) == Flatten(a) + Flatten(b)
  {
    if a == [] {
      assert a + b == b;
    } else {
      assert (a + b)[1..] == a[1..] + b;
      FlattenAppend(a[1..], b);
    }
  }

  lemma FlattenSingleton(s: seq<Item>)
    ensures Flatten([s]) == s
  {
    assert [s][1..] == [];
  }

  /** Adding x to the last group adds x at the end of the queue. */
  lemma FlattenSnoc(init: seq<seq<Item>>, last: seq<Item>, x: Item)
    ensures Flatten(init + [last + [x]]) == Flatten(init + [last]) + [x]
  {
    FlattenAppend(init, [last + [x]]);
    FlattenAppend(init, [last]);
    FlattenSingleton(last + [x]);
    FlattenSingleton(last);
  }

  /** The number of records in group k: from the tail index (first group) or 0, to the head index (last group) or the chunk size. */
  function GroupSize(i: Info, groups: nat, k: nat): (n: int)
  {
    (if k == groups - 1 then i.head.index else i.chunksize) - (if k == 0 then i.tail.index else 0)
  }

  /** From the offset of t on, the chunk of t holds exactly the records of xs. */
  ghost predicate TailChunkHolds(d: Dir, t: Cursor, xs: seq<Item>)
  {
    t.offset <= |Chunk(d, t.chunk)| && Chunk(d, t.chunk)[t.offset..] == EncodeAll(xs)
  }

  /** Chunk first + k holds exactly the records of group k, for every group after the first. */
  ghost predicate LaterChunksHold(d: Dir, first: nat, g: seq<seq<Item>>)
  {
    forall k :: 0 < k < |g| ==> Chunk(d, first + k) == EncodeAll(g[k])
  }

  /** Every group has the number of records the cursors of i leave in its chunk. */
  ghost predicate GroupSizesMatch(i: Info, g: seq<seq<Item>>)
  {
    forall k :: 0 <= k < |g| ==> |g[k]| == GroupSize(i, |g|, k)
  }

  /** How the pending records g sit in the chunk files of d, for the cursors of i. */
  ghost predicate Layout(d: Dir, i: Info, g: seq<seq<Item>>)
  {
    var t, h := i.tail, i.head;
    && t.chunk <= h.chunk
    && |g| == h.chunk - t.chunk + 1
    && TailChunkHolds(d, t, g[0])
    && LaterChunksHold(d, t.chunk, g)
    && GroupSizesMatch(i, g)
  }

  /** The number of records from tail to head. */
  function Distance(i: Info): (n: int)
  {
    (i.head.chunk - i.tail.chunk) * i.chunksize + i.head.index - i.tail.index
  }

  /** The cursors are in range and the tail is not after the head. */
  predicate CursorsOk(i: Info)
  {
    && i.chunksize >= 1
    && i.tail.index < i.chunksize
    && i.head.index < i.chunksize
    && !Before(i.head, i.tail)
  }

  /**
   Every chunk file lies between the tail chunk and the head chunk, and the
   head chunk file, when present, ends at the committed head offset. With
   the corrected rollover offset an absent head chunk has offset 0.
   */
  ghost predicate FilesOk(d: Dir, i: Info, policy: RolloverOffset)
  {
    && (forall n :: n in d.chunks ==> i.tail.chunk <= n <= i.head.chunk)
    && (i.head.chunk in d.chunks ==> |d.chunks[i.head.chunk]| == i.head.offset)
    && (policy == StartOfNewChunk && i.head.chunk !in d.chunks ==> i.head.offset == 0)
  }

  /** Directory d, opened with the configured chunk size, represents the abstract queue q through groups g. */
  ghost predicate Refines(d: Dir, chunksize: int, q: seq<Item>, g: seq<seq<Item>>, policy: RolloverOffset)
  {
    var i := LoadInfo(d, chunksize);
    && CursorsOk(i)
    && i.size == |q|
    && |q| == Distance(i)
    && Layout(d, i, g)
    && Flatten(g) == q
    && FilesOk(d, i, policy)
  }

  /** Directory d represents the abstract queue q. */
  ghost predicate Represents(d: Dir, chunksize: int, q: seq<Item>, policy: RolloverOffset)
  {
    exists g :: Refines(d, chunksize, q, g, policy)
  }

  /** A directory with no metadata and no chunk files is the empty queue. */
  lemma EmptyDirRepresentsEmpty(chunksize: int, policy: RolloverOffset)
    requires chunksize >= 1
    ensures Represents(EmptyDir, chunksize, [], policy)
    ensures Qsize(EmptyDir, chunksize) == 0
    ensures Get(EmptyDir, chunksize) == GetOutcome(EmptyDir, Empty)
  {
    var g: seq<seq<Item>> := [[]];
    assert Flatten(g) == [] + Flatten([]);
    assert Refines(EmptyDir, chunksize, [], g, policy);
  }

  /** The stored size is the number of records between tail and head. */
  lemma SizeIsDistance(d: Dir, chunksize: int, q: seq<Item>, g: seq<seq<Item>>, policy: RolloverOffset)
    requires Refines(d, chunksize, q, g, policy)
    ensures Qsize(d, chunksize) == |q| == Distance(LoadInfo(d, chunksize))
  {
  }

  // ---------------------------------------------------------------- put

  /** The groups after a put: x joins the last group, and a new empty group opens when the head rolls over. */
  function PutGroups(init: seq<seq<Item>>, last: seq<Item>, x: Item, rolled: bool): (g': seq<seq<Item>>)
  {
    if rolled then init + [last + [x]] + [[]] else init + [last + [x]]
  }

  /** The chunk files after a put: the head chunk gained the record of x, no other chunk changed. */
  lemma PutChunks(d: Dir, chunksize: int, x: Item, policy: RolloverOffset)
    ensures var h := LoadInfo(d, chunksize).head.chunk; var d' := PutWith(d, chunksize, x, policy);
      forall n: nat :: Chunk(d', n) == if n == h then Chunk(d, h) + Encode(x) else Chunk(d, n)
  {
  }

  lemma PutTailChunk(d: Dir, chunksize: int, init: seq<seq<Item>>, last: seq<Item>, x: Item, policy: RolloverOffset)
    requires Layout(d, LoadInfo(d, chunksize), init + [last])
    ensures var i := LoadInfo(d, chunksize); var t := i.tail; var d' := PutWith(d, chunksize, x, policy);
      && t.offset <= |Chunk(d', t.chunk)|
      && Chunk(d', t.chunk)[t.offset..] == EncodeAll(PutGroups(init, last, x, i.head.index + 1 == i.chunksize)[0])
  {
    var i := LoadInfo(d, chunksize);
    var t, h := i.tail, i.head;
    var d' := PutWith(d, chunksize, x, policy);
    var g' := PutGroups(init, last, x, h.index + 1 == i.chunksize);
    PutChunks(d, chunksize, x, policy);
    if init == [] {
      EncodeAllSnoc(last, x);
      assert g'[0] == last + [x];
      assert Chunk(d', t.chunk)[t.offset..] == Chunk(d, t.chunk)[t.offset..] + Encode(x);
    } else {
      assert g'[0] == init[0] == (init + [last])[0];
      assert Chunk(d', t.chunk) == Chunk(d, t.chunk);
    }
  }

  lemma PutLaterChunk(d: Dir, chunksize: int, init: seq<seq<Item>>, last: seq<Item>, x: Item, policy: RolloverOffset, k: nat)
    requires Layout(d, LoadInfo(d, chunksize), init + [last])
    requires LoadInfo(d, chunksize).head.chunk + 1 !in d.chunks
    requires var i := LoadInfo(d, chunksize);
      0 < k < |PutGroups(init, last, x, i.head.index + 1 == i.chunksize)|
    ensures var i := LoadInfo(d, chunksize); var d' := PutWith(d, chunksize, x, policy);
      var g' := PutGroups(init, last, x, i.head.index + 1 == i.chunksize);
      Chunk(d', i.tail.chunk + k) == EncodeAll(g'[k])
  {
    var g := init + [last];
    var i := LoadInfo(d, chunksize);
    var t, h := i.tail, i.head;
    var d' := PutWith(d, chunksize, x, policy);
    var g' := PutGroups(init, last, x, h.index + 1 == i.chunksize);
    var n := |init|;
    PutChunks(d, chunksize, x, policy);
    if k < n {
      assert g'[k] == g[k];
      assert Chunk(d', t.chunk + k) == Chunk(d, t.chunk + k);
    } else if k == n {
      EncodeAllSnoc(last, x);
      assert g[n] == last;
      assert Chunk(d', h.chunk) == EncodeAll(last) + Encode(x);
    } else {
      assert t.chunk + k == h.chunk + 1;
    }
  }

  lemma PutLaterChunks(d: Dir, chunksize: int, init: seq<seq<Item>>, last: seq<Item>, x: Item, policy: RolloverOffset)
    requires Layout(d, LoadInfo(d, chunksize), init + [last])
    requires LoadInfo(d, chunksize).head.chunk + 1 !in d.chunks
    ensures var i := LoadInfo(d, chunksize); var d' := PutWith(d, chunksize, x, policy);
      var g' := PutGroups(init, last, x, i.head.index + 1 == i.chunksize);
      forall k :: 0 < k < |g'| ==> Chunk(d', i.tail.chunk + k) == EncodeAll(g'[k])
  {
    var i := LoadInfo(d, chunksize);
    var d' := PutWith(d, chunksize, x, policy);
    var g' := PutGroups(init, last, x, i.head.index + 1 == i.chunksize);
    forall k | 0 < k < |g'|
      ensures Chunk(d', i.tail.chunk + k) == EncodeAll(g'[k])
    {
      PutLaterChunk(d, chunksize, init, last, x, policy, k);
    }
  }

  lemma PutGroupSizes(d: Dir, chunksize: int, init: seq<seq<Item>>, last: seq<Item>, x: Item, policy: RolloverOffset)
    requires Layout(d, LoadInfo(d, chunksize), init + [last])
    ensures var i := LoadInfo(d, chunksize); var d' := PutWith(d, chunksize, x, policy);
      var g' := PutGroups(init, last, x, i.head.index + 1 == i.chunksize);
      forall k :: 0 <= k < |g'| ==> |g'[k]| == GroupSize(LoadInfo(d', chunksize), |g'|, k)
  {
    var g := init + [last];
    var i := LoadInfo(d, chunksize);
    var d' := PutWith(d, chunksize, x, policy);
    var i' := LoadInfo(d', chunksize);
    var g' := PutGroups(init, last, x, i.head.index + 1 == i.chunksize);
    var n := |init|;
    assert i'.tail == i.tail;
    forall k | 0 <= k < |g'|
      ensures |g'[k]| == GroupSize(i', |g'|, k)
    {
      if k < n {
        assert g'[k] == g[k];
        assert |g[k]| == GroupSize(i, |g|, k);
      } else if k == n {
        assert g'[k] == last + [x];
        assert |g[n]| == GroupSize(i, |g|, n);
      }
    }
  }

  lemma PutLayout(d: Dir, chunksize: int, q: seq<Item>, init: seq<seq<Item>>, last: seq<Item>, x: Item, policy: RolloverOffset)
    requires Refines(d, chunksize, q, init + [last], policy)
    ensures var i := LoadInfo(d, chunksize); var d' := PutWith(d, chunksize, x, policy);
      Layout(d', LoadInfo(d', chunksize), PutGroups(init, last, x, i.head.index + 1 == i.chunksize))
  {
    PutTailChunk(d, chunksize, init, last, x, policy);
    PutLaterChunks(d, chunksize, init, last, x, policy);
    PutGroupSizes(d, chunksize, init, last, x, policy);
  }

  lemma PutCursors(d: Dir, chunksize: int, q: seq<Item>, g: seq<seq<Item>>, x: Item, policy: RolloverOffset)
    requires Refines(d, chunksize, q, g, policy)
    ensures var i' := LoadInfo(PutWith(d, chunksize, x, policy), chunksize);
      CursorsOk(i') && i'.size == |q| + 1 == Distance(i')
  {
    var i := LoadInfo(d, chunksize);
    var t, h := i.tail, i.head;
    var i' := LoadInfo(PutWith(d, chunksize, x, policy), chunksize);
    assert i'.tail == t && i'.chunksize == i.chunksize;
    if h.index + 1 == i.chunksize {
      assert (h.chunk + 1 - t.chunk) * i.chunksize == (h.chunk - t.chunk) * i.chunksize + i.chunksize;
    }
  }

  lemma PutFiles(d: Dir, chunksize: int, q: seq<Item>, g: seq<seq<Item>>, x: Item, policy: RolloverOffset)
    requires Refines(d, chunksize, q, g, policy)
    ensures var d' := PutWith(d, chunksize, x, policy); FilesOk(d', LoadInfo(d', chunksize), policy)
  {
    var i := LoadInfo(d, chunksize);
    var d' := PutWith(d, chunksize, x, policy);
    var i' := LoadInfo(d', chunksize);
    assert i'.tail == i.tail;
    if i.head.index + 1 == i.chunksize {
      assert i'.head.chunk == i.head.chunk + 1 && i.head.chunk + 1 !in d'.chunks;
    } else {
      assert i'.head.chunk == i.head.chunk;
    }
  }

  /** A put appends its item to the abstract queue. */
  lemma PutRefines(d: Dir, chunksize: int, q: seq<Item>, g: seq<seq<Item>>, x: Item, policy: RolloverOffset)
    returns (g': seq<seq<Item>>)
    requires Refines(d, chunksize, q, g, policy)
    ensures Refines(PutWith(d, chunksize, x, policy), chunksize, q + [x], g', policy)
  {
    var i := LoadInfo(d, chunksize);
    var rolled := i.head.index + 1 == i.chunksize;
    var init, last := g[..|g| - 1], g[|g| - 1];
    assert g == init + [last];
    g' := PutGroups(init, last, x, rolled);
    PutLayout(d, chunksize, q, init, last, x, policy);
    PutCursors(d, chunksize, q, g, x, policy);
    PutFiles(d, chunksize, q, g, x, policy);
    FlattenSnoc(init, last, x);
    if rolled {
      FlattenAppend(init + [last + [x]], [[]]);
      FlattenSingleton([]);
    }
  }

  // ---------------------------------------------------------------- get

  /** The first group holds records exactly when the tail is before the head. */
  lemma FirstGroup(d: Dir, chunksize: int, q: seq<Item>, g: seq<seq<Item>>, policy: RolloverOffset)
    requires Refines(d, chunksize, q, g, policy)
    ensures var i := LoadInfo(d, chunksize);
      (q != [] <==> Before(i.tail, i.head)) && (q != [] <==> g[0] != [])
    ensures q != [] ==> q[0] == g[0][0]
  {
    var i := LoadInfo(d, chunksize);
    assert |g[0]| == GroupSize(i, |g|, 0);
    assert q == g[0] + Flatten(g[1..]);
  }

  /** The tail cursor after reading x at tail t. */
  function TailAfterRead(i: Info, x: Item): (c: Cursor)
  {
    var t := i.tail;
    if t.index + 1 == i.chunksize then Cursor(t.chunk + 1, 0, 0)
    else Cursor(t.chunk, t.index + 1, t.offset + |Encode(x)|)
  }

  /** The directory a get leaves behind after reading x: metadata with the tail advanced, and the consumed chunk deleted on rollover. */
  function DirAfterRead(d: Dir, i: Info, x: Item): (r: Dir)
  {
    var t := i.tail;
    Dir(Some(i.(size := i.size - 1, tail := TailAfterRead(i, x))),
        if t.index + 1 == i.chunksize then d.chunks - {t.chunk} else d.chunks)
  }

  /** On a non-empty queue a get reads the front item, at the tail of the tail chunk. */
  lemma GetFront(d: Dir, chunksize: int, q: seq<Item>, g: seq<seq<Item>>, policy: RolloverOffset)
    requires Refines(d, chunksize, q, g, policy)
    requires q != []
    ensures var i := LoadInfo(d, chunksize); var t := i.tail;
      && g[0] != [] && g[0][0] == q[0]
      && t.chunk in d.chunks
      && Get(d, chunksize).reply == Got(q[0])
      && Get(d, chunksize).dir == DirAfterRead(d, i, q[0])
  {
    var i := LoadInfo(d, chunksize);
    var t := i.tail;
    FirstGroup(d, chunksize, q, g, policy);
    var x := g[0][0];
    var c := Chunk(d, t.chunk);
    assert EncodeAll(g[0]) == Encode(x) + EncodeAll(g[0][1..]);
    assert c[t.offset..] == Encode(x) + EncodeAll(g[0][1..]);
    assert t.chunk in d.chunks;
    DecodeEncode(x, EncodeAll(g[0][1..]));
  }

  /** Cutting a record off the front of the bytes from offset `off` on leaves the bytes after it. */
  lemma DropRecord(c: Bytes, off: nat, x: Item, rest: Bytes)
    requires off <= |c|
    requires c[off..] == Encode(x) + rest
    ensures off + |Encode(x)| <= |c|
    ensures c[off + |Encode(x)|..] == rest
  {
    assert c[off + |Encode(x)|..] == c[off..][|Encode(x)|..];
  }

  /** Cutting the front record of a group's bytes leaves the bytes of the rest of the group. */
  lemma DropFrontRecord(c: Bytes, off: nat, xs: seq<Item>)
    requires off <= |c| && xs != []
    requires c[off..] == EncodeAll(xs)
    ensures off + |Encode(xs[0])| <= |c|
    ensures c[off + |Encode(xs[0])|..] == EncodeAll(xs[1..])
  {
    assert EncodeAll(xs) == Encode(xs[0]) + EncodeAll(xs[1..]);
    DropRecord(c, off, xs[0], EncodeAll(xs[1..]));
  }

  /** Reading the front record without leaving the chunk: the first group loses its front. */
  lemma LayoutPopWithinChunk(d: Dir, i: Info, g: seq<seq<Item>>, d': Dir, i': Info)
    requires Layout(d, i, g)
    requires g[0] != []
    requires d'.chunks == d.chunks
    requires i'.chunksize == i.chunksize && i'.head == i.head
    requires i'.tail == Cursor(i.tail.chunk, i.tail.index + 1, i.tail.offset + |Encode(g[0][0])|)
    ensures Layout(d', i', [g[0][1..]] + g[1..])
  {
    var t := i.tail;
    var g' := [g[0][1..]] + g[1..];
    PopTailChunk(d, t, g[0], d', i'.tail);
    PopLaterChunks(d, t.chunk, g, d', g');
    PopGroupSizes(i, g, i', g');
  }

  /** Reading the front record of xs at t leaves the rest of xs after the advanced cursor t'. */
  lemma PopTailChunk(d: Dir, t: Cursor, xs: seq<Item>, d': Dir, t': Cursor)
    requires TailChunkHolds(d, t, xs)
    requires xs != []
    requires d'.chunks == d.chunks
    requires t'.chunk == t.chunk && t'.offset == t.offset + |Encode(xs[0])|
    ensures TailChunkHolds(d', t', xs[1..])
  {
    DropFrontRecord(Chunk(d, t.chunk), t.offset, xs);
    assert Chunk(d', t.chunk) == Chunk(d, t.chunk);
  }

  /** The chunks after the first keep their groups when only the first group changes. */
  lemma PopLaterChunks(d: Dir, first: nat, g: seq<seq<Item>>, d': Dir, g': seq<seq<Item>>)
    requires d'.chunks == d.chunks
    requires |g'| == |g| >= 1 && g'[1..] == g[1..]
    requires LaterChunksHold(d, first, g)
    ensures LaterChunksHold(d', first, g')
  {
    forall k | 0 < k < |g'|
      ensures Chunk(d', first + k) == EncodeAll(g'[k])
    {
      assert g'[k] == g'[1..][k - 1] == g[1..][k - 1] == g[k];
    }
  }

  /** The first group losing one record as the tail index grows by one keeps every group size. */
  lemma PopGroupSizes(i: Info, g: seq<seq<Item>>, i': Info, g': seq<seq<Item>>)
    requires |g| >= 1 && g[0] != []
    requires i'.chunksize == i.chunksize && i'.head == i.head && i'.tail.index == i.tail.index + 1
    requires g' == [g[0][1..]] + g[1..]
    requires GroupSizesMatch(i, g)
    ensures GroupSizesMatch(i', g')
  {
    forall k | 0 <= k < |g'|
      ensures |g'[k]| == GroupSize(i', |g'|, k)
    {
      assert |g[k]| == GroupSize(i, |g|, k);
    }
  }

  /** Reading the last record of the tail chunk and deleting that chunk: the first group is gone. */
  lemma LayoutPopRollover(d: Dir, i: Info, g: seq<seq<Item>>, d': Dir, i': Info)
    requires Layout(d, i, g)
    requires |g| > 1 && |g[0]| == 1
    requires d'.chunks == d.chunks - {i.tail.chunk}
    requires i'.chunksize == i.chunksize && i'.head == i.head
    requires i'.tail == Cursor(i.tail.chunk + 1, 0, 0)
    ensures Layout(d', i', g[1..])
  {
    var t := i.tail;
    RolloverTailChunk(d, t.chunk, g, d', i'.tail);
    RolloverLaterChunks(d, t.chunk, g, d');
    RolloverGroupSizes(i, g, i');
  }

  /** The chunk after a deleted tail chunk holds the second group from its start. */
  lemma RolloverTailChunk(d: Dir, first: nat, g: seq<seq<Item>>, d': Dir, t': Cursor)
    requires |g| > 1 && LaterChunksHold(d, first, g)
    requires d'.chunks == d.chunks - {first}
    requires t' == Cursor(first + 1, 0, 0)
    ensures TailChunkHolds(d', t', g[1..][0])
  {
    assert Chunk(d', first + 1) == Chunk(d, first + 1) == EncodeAll(g[1]);
    assert Chunk(d', first + 1)[0..] == Chunk(d', first + 1);
  }

  /** Deleting the tail chunk shifts the later groups by one chunk. */
  lemma RolloverLaterChunks(d: Dir, first: nat, g: seq<seq<Item>>, d': Dir)
    requires |g| > 1 && LaterChunksHold(d, first, g)
    requires d'.chunks == d.chunks - {first}
    ensures LaterChunksHold(d', first + 1, g[1..])
  {
    forall k | 0 < k < |g[1..]|
      ensures Chunk(d', first + 1 + k) == EncodeAll(g[1..][k])
    {
      assert Chunk(d', first + 1 + k) == Chunk(d, first + (k + 1));
    }
  }

  /** With the tail moved to the start of the next chunk, the remaining groups keep their sizes. */
  lemma RolloverGroupSizes(i: Info, g: seq<seq<Item>>, i': Info)
    requires |g| > 1 && GroupSizesMatch(i, g)
    requires i'.chunksize == i.chunksize && i'.head == i.head && i'.tail.index == 0
    ensures GroupSizesMatch(i', g[1..])
  {
    forall k | 0 <= k < |g[1..]|
      ensures |g[1..][k]| == GroupSize(i', |g[1..]|, k)
    {
      assert |g[k + 1]| == GroupSize(i, |g|, k + 1);
    }
  }

  /** After a read the cursors are still in order and the size still counts the records between them. */
  lemma ReadCursors(d: Dir, chunksize: int, q: seq<Item>, g: seq<seq<Item>>, policy: RolloverOffset)
    requires Refines(d, chunksize, q, g, policy)
    requires q != []
    ensures var i' := LoadInfo(DirAfterRead(d, LoadInfo(d, chunksize), q[0]), chunksize);
      CursorsOk(i') && i'.size == |q| - 1 == Distance(i')
  {
    var i := LoadInfo(d, chunksize);
    var t, h := i.tail, i.head;
    FirstGroup(d, chunksize, q, g, policy);
    var i' := LoadInfo(DirAfterRead(d, i, q[0]), chunksize);
    assert i' == i.(size := i.size - 1, tail := TailAfterRead(i, q[0]));
    if t.index + 1 == i.chunksize {
      assert (h.chunk - t.chunk) * i.chunksize == (h.chunk - (t.chunk + 1)) * i.chunksize + i.chunksize;
    }
  }

  /** After a read every chunk file still lies between tail and head, and the head chunk is untouched. */
  lemma ReadFiles(d: Dir, chunksize: int, q: seq<Item>, g: seq<seq<Item>>, policy: RolloverOffset)
    requires Refines(d, chunksize, q, g, policy)
    requires q != []
    ensures var d' := DirAfterRead(d, LoadInfo(d, chunksize), q[0]); FilesOk(d', LoadInfo(d', chunksize), policy)
  {
    var i := LoadInfo(d, chunksize);
    var t, h := i.tail, i.head;
    FirstGroup(d, chunksize, q, g, policy);
    var d' := DirAfterRead(d, i, q[0]);
    var i' := LoadInfo(d', chunksize);
    assert i' == i.(size := i.size - 1, tail := TailAfterRead(i, q[0]));
    if t.index + 1 == i.chunksize {
      assert t.chunk < h.chunk;
      assert d'.chunks == d.chunks - {t.chunk};
    } else {
      assert d'.chunks == d.chunks;
    }
  }

  /** The groups after a read: the front item leaves the first group, and an emptied first group is dropped. */
  function ReadGroups(g: seq<seq<Item>>, rolled: bool): (g': seq<seq<Item>>)
    requires g != [] && g[0] != []
  {
    if rolled then g[1..] else [g[0][1..]] + g[1..]
  }

  lemma ReadLayoutWithinChunk(d: Dir, chunksize: int, q: seq<Item>, g: seq<seq<Item>>, policy: RolloverOffset)
    requires Refines(d, chunksize, q, g, policy)
    requires q != []
    requires LoadInfo(d, chunksize).tail.index + 1 != LoadInfo(d, chunksize).chunksize
    ensures g[0] != []
    ensures var d' := DirAfterRead(d, LoadInfo(d, chunksize), q[0]);
      Layout(d', LoadInfo(d', chunksize), ReadGroups(g, false))
  {
    var i := LoadInfo(d, chunksize);
    FirstGroup(d, chunksize, q, g, policy);
    var d' := DirAfterRead(d, i, q[0]);
    LayoutPopWithinChunk(d, i, g, d', LoadInfo(d', chunksize));
  }

  lemma ReadLayoutRollover(d: Dir, chunksize: int, q: seq<Item>, g: seq<seq<Item>>, policy: RolloverOffset)
    requires Refines(d, chunksize, q, g, policy)
    requires q != []
    requires LoadInfo(d, chunksize).tail.index + 1 == LoadInfo(d, chunksize).chunksize
    ensures g[0] != []
    ensures var d' := DirAfterRead(d, LoadInfo(d, chunksize), q[0]);
      Layout(d', LoadInfo(d', chunksize), ReadGroups(g, true))
  {
    var i := LoadInfo(d, chunksize);
    var t := i.tail;
    FirstGroup(d, chunksize, q, g, policy);
    var d' := DirAfterRead(d, i, q[0]);
    assert |g[0]| == GroupSize(i, |g|, 0);
    LayoutPopRollover(d, i, g, d', LoadInfo(d', chunksize));
  }

  /** The abstract queue after a read is the old one without its front. */
  lemma ReadFlatten(d: Dir, chunksize: int, q: seq<Item>, g: seq<seq<Item>>, policy: RolloverOffset)
    requires Refines(d, chunksize, q, g, policy)
    requires q != []
    ensures g[0] != []
    ensures var i := LoadInfo(d, chunksize);
      Flatten(ReadGroups(g, i.tail.index + 1 == i.chunksize)) == q[1..]
  {
    var i := LoadInfo(d, chunksize);
    var rolled := i.tail.index + 1 == i.chunksize;
    FirstGroup(d, chunksize, q, g, policy);
    if rolled {
      assert |g[0]| == GroupSize(i, |g|, 0);
    }
    FlattenPop(g, rolled);
  }

  /** Dropping the front item of the first group, and the group itself when that empties it, drops the front of the queue. */
  lemma {:induction false} FlattenPop(g: seq<seq<Item>>, rolled: bool)
    requires g != [] && g[0] != []
    requires rolled ==> |g[0]| == 1
    ensures Flatten(ReadGroups(g, rolled)) == Flatten(g)[1..]
  {
    var rest := Flatten(g[1..]);
    assert Flatten(g) == g[0] + rest;
    if rolled {
      assert (g[0] + rest)[1..] == rest;
    } else {
      var g' := [g[0][1..]] + g[1..];
      assert g'[0] == g[0][1..] && g'[1..] == g[1..];
      assert Flatten(g') == g[0][1..] + rest;
      assert (g[0] + rest)[1..] == g[0][1..] + rest;
    }
  }

  /** A get pops the front of a non-empty abstract queue and reports Empty, changing nothing, on an empty one. */
  lemma GetRefines(d: Dir, chunksize: int, q: seq<Item>, g: seq<seq<Item>>, policy: RolloverOffset)
    returns (g': seq<seq<Item>>)
    requires Refines(d, chunksize, q, g, policy)
    ensures q == [] ==> Get(d, chunksize) == GetOutcome(d, Empty)
    ensures q != [] ==> Get(d, chunksize).reply == Got(q[0])
    ensures q != [] ==> Refines(Get(d, chunksize).dir, chunksize, q[1..], g', policy)
  {
    FirstGroup(d, chunksize, q, g, policy);
    g' := g;
    if q != [] {
      var i := LoadInfo(d, chunksize);
      GetFront(d, chunksize, q, g, policy);
      ReadCursors(d, chunksize, q, g, policy);
      ReadFiles(d, chunksize, q, g, policy);
      if i.tail.index + 1 == i.chunksize {
        ReadLayoutRollover(d, chunksize, q, g, policy);
      } else {
        ReadLayoutWithinChunk(d, chunksize, q, g, policy);
      }
      ReadFlatten(d, chunksize, q, g, policy);
      g' := ReadGroups(g, i.tail.index + 1 == i.chunksize);
    }
  }

  // ---------------------------------------------------------------- open

  /** Reopening a consistent queue changes nothing on disk. */
  lemma RecoverRefines(d: Dir, chunksize: int, q: seq<Item>, g: seq<seq<Item>>, policy: RolloverOffset)
    requires Refines(d, chunksize, q, g, policy)
    ensures Recover(d, chunksize) == d
  {
  }
}

=== FILE: storage.dfy ===
/**
 The storage engine of the persistent queue (pqueue/pqueue.py), as a state
 machine over an abstract queue directory. The directory holds an optional
 metadata record and the chunk files, each a byte string keyed by its chunk
 number. Size, put and get each run under one exclusive lock, so each is an
 atomic function from directory to directory. Opening takes no lock; its
 recovery step is modelled as atomic all the same.
 */
module Storage {
  import opened Options
  import opened Codec

  /** A position in the log: chunk number, record index inside the chunk, byte offset inside the chunk file. */
  datatype Cursor = Cursor(chunk: nat, index: nat, offset: nat)

  const Origin: Cursor := Cursor(0, 0, 0)

  /** The metadata record: records per chunk, records enqueued, write cursor and read cursor. */
  datatype Info = Info(chunksize: int, size: int, head: Cursor, tail: Cursor)

  /** The queue directory: the metadata file, when it exists, and the chunk files. */
  datatype Dir = Dir(info: Option<Info>, chunks: map<nat, Bytes>)

  /** A directory before the first write: no metadata, no chunk files. */
  const EmptyDir: Dir := Dir(None, map[])

  /** The metadata the engine works with: the stored record, or a fresh one for the configured chunk size. */
  function LoadInfo(d: Dir, chunksize: int): (i: Info)
    ensures d.info.Some? ==> i == d.info.value
    ensures d.info.None? ==> i.chunksize == chunksize && i.size == 0 && i.head == i.tail == Origin
  {
    match d.info
    case None => Info(chunksize, 0, Origin, Origin)
    case Some(stored) => stored
  }

  /** The bytes of chunk n; a chunk file that does not exist reads as empty when appended to. */
  function Chunk(d: Dir, n: nat): (c: Bytes)
  {
    if n in d.chunks then d.chunks[n] else []
  }

  /** a is strictly before b in the order of (chunk, index) pairs; byte offsets do not take part. */
  predicate Before(a: Cursor, b: Cursor)
  {
    a.chunk < b.chunk || (a.chunk == b.chunk && a.index < b.index)
  }

  /** The number of enqueued records, as stored in the metadata. */
  function Qsize(d: Dir, chunksize: int): (n: int)
    ensures d.info.None? ==> n == 0
  {
    LoadInfo(d, chunksize).size
  }

  // ---------------------------------------------------------------- put

  /**
   Which byte offset the head cursor records when a put fills its chunk and
   the head moves on to the next chunk number. The engine as written keeps
   the end of the chunk just filled; the new chunk actually starts at 0.
   */
  datatype RolloverOffset = EndOfOldChunk | StartOfNewChunk

  /** The head cursor after one record was appended, leaving the head chunk `written` bytes long. */
  function AdvanceHead(h: Cursor, chunksize: int, written: nat, policy: RolloverOffset): (h': Cursor)
    ensures h.index + 1 == chunksize ==> h'.chunk == h.chunk + 1 && h'.index == 0
    ensures h.index + 1 != chunksize ==> h'.chunk == h.chunk && h'.index == h.index + 1 && h'.offset == written
    ensures Before(h, h')
  {
    if h.index + 1 == chunksize then
      Cursor(h.chunk + 1, 0, if policy == EndOfOldChunk then written else 0)
    else
      Cursor(h.chunk, h.index + 1, written)
  }

  /**
   Enqueues x: appends its record to the head chunk (creating the file when
   absent), advances the head cursor with rollover at the chunk size,
   increments the size, and replaces the metadata.
   */
  function PutWith(d: Dir, chunksize: int, x: Item, policy: RolloverOffset): (r: Dir)
    ensures var h := LoadInfo(d, chunksize).head.chunk;
      && r.chunks.Keys == d.chunks.Keys + {h}
      && r.chunks[h] == Chunk(d, h) + Encode(x)
      && (forall n :: n in d.chunks && n != h ==> r.chunks[n] == d.chunks[n])
    ensures r.info.Some?
    ensures var i := LoadInfo(d, chunksize);
      && r.info.value.chunksize == i.chunksize
      && r.info.value.tail == i.tail
      && r.info.value.size == i.size + 1
      && r.info.value.head == AdvanceHead(i.head, i.chunksize, |r.chunks[i.head.chunk]|, policy)
  {
    var i := LoadInfo(d, chunksize);
    var written := Chunk(d, i.head.chunk) + Encode(x);
    Dir(Some(i.(size := i.size + 1, head := AdvanceHead(i.head, i.chunksize, |written|, policy))),
        d.chunks[i.head.chunk := written])
  }

  /** The put of the engine as written: on rollover the new head offset is the length of the chunk just filled. */
  function Put(d: Dir, chunksize: int, x: Item): (r: Dir)
    ensures var h := LoadInfo(d, chunksize).head;
      && r.info.Some?
      && h.chunk in r.chunks
      && r.chunks[h.chunk] == Chunk(d, h.chunk) + Encode(x)
      && r.info.value.head.offset == |r.chunks[h.chunk]|
  {
    PutWith(d, chunksize, x, EndOfOldChunk)
  }

  /** The put with the rollover offset corrected: a head that moved to a new chunk points at its start. */
  function PutCorrected(d: Dir, chunksize: int, x: Item): (r: Dir)
    ensures var h := LoadInfo(d, chunksize).head;
      && r.info.Some?
      && h.chunk in r.chunks
      && r.chunks[h.chunk] == Chunk(d, h.chunk) + Encode(x)
      && r.info.value.head.offset == if h.index + 1 == LoadInfo(d, chunksize).chunksize then 0 else |r.chunks[h.chunk]|
  {
    PutWith(d, chunksize, x, StartOfNewChunk)
  }

  // ---------------------------------------------------------------- get

  /** Why a read at the tail failed: the tail chunk file is missing, or the bytes there are not a complete record. */
  datatype GetError = MissingChunk | MalformedRecord

  /** The answer of a get: an item, "empty", or a failure. */
  datatype GetReply = Got(item: Item) | Empty | Failed(error: GetError)

  datatype GetOutcome = GetOutcome(dir: Dir, reply: GetReply)

  /**
   Dequeues one item. Reports Empty, changing nothing, when the tail is not
   before the head. Otherwise decodes the record at the tail offset of the
   tail chunk, advances the tail, and, when the tail's index reaches the chunk
   size, moves the tail to the start of the next chunk and deletes the chunk
   just consumed. A missing chunk file or an incomplete record is reported as
   a failure and changes nothing.
   */
  function Get(d: Dir, chunksize: int): (r: GetOutcome)
    ensures var i := LoadInfo(d, chunksize);
      r.reply.Empty? <==> !Before(i.tail, i.head)
    ensures var i := LoadInfo(d, chunksize); var t := i.tail;
      r.reply.Failed? <==>
        && Before(t, i.head)
        && (|| t.chunk !in d.chunks
            || t.offset > |d.chunks[t.chunk]|
            || forall x: Item :: !StartsWithRecord(d.chunks[t.chunk][t.offset..], x))
    ensures var i := LoadInfo(d, chunksize);
      r.reply == Failed(MissingChunk) <==> Before(i.tail, i.head) && i.tail.chunk !in d.chunks
    ensures !r.reply.Got? ==> r.dir == d
    ensures var i := LoadInfo(d, chunksize); var t := i.tail;
      r.reply.Got? ==>
        && t.chunk in d.chunks
        && t.offset <= |d.chunks[t.chunk]|
        && StartsWithRecord(d.chunks[t.chunk][t.offset..], r.reply.item)
        && r.dir.info.Some?
        && r.dir.info.value == i.(size := i.size - 1, tail := r.dir.info.value.tail)
    ensures var i := LoadInfo(d, chunksize); var t := i.tail;
      r.reply.Got? && t.index + 1 == i.chunksize ==>
        && r.dir.info.value.tail == Cursor(t.chunk + 1, 0, 0)
        && r.dir.chunks == d.chunks - {t.chunk}
    ensures var i := LoadInfo(d, chunksize); var t := i.tail;
      r.reply.Got? && t.index + 1 != i.chunksize ==>
        && r.dir.info.value.tail == Cursor(t.chunk, t.index + 1, t.offset + |Encode(r.reply.item)|)
        && r.dir.chunks == d.chunks
    ensures var i := LoadInfo(d, chunksize);
      r.reply.Got? && i.head.index < i.chunksize ==> i.head.chunk in d.chunks ==>
        i.head.chunk in r.dir.chunks && r.dir.chunks[i.head.chunk] == d.chunks[i.head.chunk]
  {
    var i := LoadInfo(d, chunksize);
    var t, h := i.tail, i.head;
    if !Before(t, h) then GetOutcome(d, Empty)
    else if t.chunk !in d.chunks then GetOutcome(d, Failed(MissingChunk))
    else
      var c := d.chunks[t.chunk];
      if t.offset > |c| then GetOutcome(d, Failed(MalformedRecord))
      else match Decode(c[t.offset..])
        case Malformed => GetOutcome(d, Failed(MalformedRecord))
        case Record(x, used) =>
          if t.index + 1 == i.chunksize && t.chunk <= h.chunk then
            var i' := i.(size := i.size - 1, tail := Cursor(t.chunk + 1, 0, 0));
            GetOutcome(Dir(Some(i'), d.chunks - {t.chunk}), Got(x))
          else
            var i' := i.(size := i.size - 1, tail := Cursor(t.chunk, t.index + 1, t.offset + used));
            GetOutcome(Dir(Some(i'), d.chunks), Got(x))
  }

  // ---------------------------------------------------------------- open

  /**
   The recovery step of opening a queue: when the head chunk file exists and
   is longer than the committed head offset, it is cut back to that offset.
   Nothing else changes.
   */
  function Recover(d: Dir, chunksize: int): (r: Dir)
    ensures r.info == d.info
    ensures r.chunks.Keys == d.chunks.Keys
    ensures var h := LoadInfo(d, chunksize).head;
      forall n :: n in d.chunks && n != h.chunk ==> r.chunks[n] == d.chunks[n]
    ensures var h := LoadInfo(d, chunksize).head;
      h.chunk in d.chunks ==>
        && |r.chunks[h.chunk]| == (if h.offset < |d.chunks[h.chunk]| then h.offset else |d.chunks[h.chunk]|)
        && r.chunks[h.chunk] == d.chunks[h.chunk][..|r.chunks[h.chunk]|]
  {
    var h := LoadInfo(d, chunksize).head;
    if h.chunk in d.chunks && h.offset < |d.chunks[h.chunk]| then
      d.(chunks := d.chunks[h.chunk := d.chunks[h.chunk][..h.offset]])
    else d
  }

  /** Recovering twice is recovering once. */
  lemma RecoverIdempotent(d: Dir, chunksize: int)
    ensures Recover(Recover(d, chunksize), chunksize) == Recover(d, chunksize)
  {
  }
}
